=== FILE: README.md ===
# Idender front-end: the decision rules inside the page handlers

Idender is a web front-end where school users sign up, submit ideas and vote
on them by swiping cards. The pages are React components that talk to a REST
API. A few small, pure decision rules sit inside their event handlers. This
project states those rules in Dafny and proves what they guarantee:

- **Sign-up** (`app/signup/page.tsx` and the older `signup/page.tsx`).
  The email is trimmed and must match `^[^\s@]+@[^\s@]+\.[^\s@]+$` and end
  with `@tpl.edu.ee`. The password is not trimmed and must be 8–64 UTF-16
  code units. The sign-up request goes out only when both checks pass. A 201
  reply moves the page to the code phase. The code must be six ASCII digits.
- **Locale** (`components/header.tsx`, `middleware.ts`). The header picks the
  `lang` cookie if it is supported, else the first path segment if that is
  supported, else `et`. It rewrites the cookie when the cookie is missing or
  differs. The middleware redirects only `/`, to `/` plus the cookie, or to
  `/et` when there is none.
- **New idea** (`app/authenticated/new_idea/page.tsx`). Picking a category
  toggles its id in the tag list. The form is encoded as the request
  payload, and a successful submit clears the form.
- **Swipe voting** (`app/authenticated/voting/page.tsx`). Pointer events move
  a card. On release, the position of the last pointer move is compared
  with the press: more than 100 px to the right votes like, more than 100 px
  to the left votes dislike, and anything else resets the card. The release
  position itself is never read. Coordinates are `real`, because
  `clientX` is a JavaScript number and may be fractional.

Every handler is a pure function over an immutable state record. Network
replies, cookies and the session token are parameters. Requests, cookie
writes and navigations are returned as values. A sign-up `async` handler is
split at its `await`: one function for the part before, one for the part
after. The idea submit, which awaits twice, is one function that takes both
replies as parameters.

Modules: `Optional` (undefined/null), `JsString` (`\s`, `trim`, `.length`
in UTF-16 code units, `endsWith`, `split`), `SignupRules`, `SignupPage`,
`LegacySignup`, `Header`, `Middleware`, `NewIdea`, `Voting`.

`JsString.IsWs` is JavaScript's `\s` set. `trim` strips the same set. The
proofs about trimming hold for any set. The email proofs need only that `@`,
`.` and the lower-case ASCII letters are not in it; `JsString.IsWsFacts`
collects those facts. A Dafny `char` is a
Unicode scalar value. A character above U+FFFF is one `char` here but two
UTF-16 code units in JavaScript, so `.length` is modelled as
`JsString.Utf16Length`.

## Model

| member | source | states |
|---|---|---|
| JsString.Trim | app/signup/page.tsx:30 | the trimmed email has no whitespace at either end, and the raw input is exactly that string with whitespace added on both sides |
| JsString.TrimOfPadded | app/signup/page.tsx:30 | padding an unpadded string with whitespace on both sides and trimming gives the string back |
| JsString.TrimFixedIffUnpadded | app/signup/page.tsx:30 | trim changes nothing iff neither end is whitespace |
| JsString.TrimIdempotent | app/signup/page.tsx:30 | trimming twice equals trimming once |
| JsString.IsWsFacts | app/signup/page.tsx:35 | `@`, `.` and the lower-case letters a–z are not matched by `\s`, so they can occur inside an email run |
| JsString.Utf16Length | app/signup/page.tsx:43 | `.length` lies between the character count and twice it, and equals the character count when no character is above U+FFFF |
| JsString.Split | components/header.tsx:17 | `split('/')` returns at least one piece, no piece contains `/`, and joining the pieces with `/` gives the input back |
| JsString.SplitAfterPiece | components/header.tsx:17 | splitting `a/b` with `/`-free `a` gives `a` followed by the pieces of `b` |
| JsString.SplitOfPiece | components/header.tsx:17 | a string without `/` splits into itself alone |
| SignupRules.EmailRegexTestSound | app/signup/page.tsx:35 | every string the executable email test accepts has the regex's form a@b.c, where a, b and c are non-empty runs of non-space, non-`@` characters |
| SignupRules.EmailRegexTestComplete | app/signup/page.tsx:35 | every string of the form a@b.c, with a, b and c such runs, passes the executable test |
| SignupRules.EmailRegexTestMatchesGrammar | app/signup/page.tsx:35 | the executable test and the regex's grammar accept the same strings |
| SignupRules.EmailRegexTestCharacterized | app/signup/page.tsx:35-38 | the regex accepts iff the string has no whitespace, exactly one `@` with something before it, and a dot after the `@` that is neither the domain's first nor its last character |
| SignupRules.RequiredDomainShape | app/signup/page.tsx:36 | `@tpl.edu.ee` is 11 characters, starts with `@`, and its domain satisfies the regex's domain part |
| SignupRules.ValidEmailShape | app/signup/page.tsx:35-41 | an email passes (regex plus suffix) iff it is a non-empty run of non-space, non-`@` characters followed by `@tpl.edu.ee` |
| SignupRules.ValidEmailSingleAt | app/signup/page.tsx:35-41 | an accepted email has its only `@` at index length−11, with a non-empty local part before it |
| SignupRules.ValidEmailIsTrimmed | app/signup/page.tsx:30-41 | an accepted email has no surrounding whitespace, so trimming it again changes nothing |
| SignupRules.PasswordRuleBmp | app/signup/page.tsx:43-46 | for a password without characters above U+FFFF, it is accepted iff 8 ≤ length ≤ 64, so lengths 7 and 65 fail and 8 and 64 pass |
| SignupRules.PasswordCountsCodeUnits | app/signup/page.tsx:43 | length counts UTF-16 code units: four emoji pass the 8-unit minimum, three do not |
| SignupRules.OtpLengthTestRedundant | app/signup/page.tsx:69-72 | a code is accepted iff it is exactly six ASCII digits; the separate length test is implied by the regex |
| SignupPage.OrElse | app/signup/page.tsx:61 | the `or`-fallback on the server message returns the message when it is present and non-empty, and the fallback when it is missing or empty |
| SignupPage.HandleSignup | app/signup/page.tsx:26-47 | when a request is issued the page state is untouched; otherwise an error alert is shown |
| SignupPage.HandleSignupOutcome | app/signup/page.tsx:55-65 | handling the reply never changes the code typed so far |
| SignupPage.HandleVerifyOtp | app/signup/page.tsx:68-79 | when the code request is issued the page state is untouched |
| SignupPage.HandleOtpOutcome | app/signup/page.tsx:81-96 | every outcome shows an alert, and none leaves the code phase or changes the stored email |
| SignupPage.SignupRequestIffValid | app/signup/page.tsx:30-53 | a sign-up request is issued iff the trimmed email and the untrimmed password both pass; it carries the trimmed email and names and the raw password |
| SignupPage.EmailErrorTakesPrecedence | app/signup/page.tsx:38-46 | an invalid email shows "Invalid Email", sends nothing, and gives the same page whatever the password is |
| SignupPage.PasswordErrorAfterEmail | app/signup/page.tsx:43-46 | a valid email with a bad password shows the "Invalid Password" alert and its message |
| SignupPage.EmailTrimmedPasswordNot | app/signup/page.tsx:30-33 | whitespace around a valid email is dropped before the check and the request; the password is checked and sent exactly as typed |
| SignupPage.OtpPhaseOnlyOn201 | app/signup/page.tsx:55-65 | the code phase is entered iff the reply status is 201, and then the stored email is the one sent; any other outcome keeps the stored email and shows an alert |
| SignupPage.OtpPhaseKeepsValidatedEmail | app/signup/page.tsx:38-58 | starting from the form, reaching the code phase implies both checks passed and the stored email is the trimmed, accepted email |
| SignupPage.OtpRequestIffSixDigits | app/signup/page.tsx:69-79 | the code request is issued iff the code is six ASCII digits; it pairs the code with the stored email; otherwise "Invalid OTP" is shown |
| SignupPage.RedirectOnlyOn200 | app/signup/page.tsx:81-93 | the page moves on to `/login` iff the reply status is 200, and then with a success alert |
| SignupPage.FailureMessageFallback | app/signup/page.tsx:59-62 | a failed sign-up shows "Signup Failed"; a present, non-empty server message is shown as sent, and a missing or empty one shows the default |
| SignupPage.OtpFailureMessageFallback | app/signup/page.tsx:90-93 | a rejected code shows "OTP Failed" and no redirect; a present, non-empty server message is shown as sent, and a missing or empty one shows "Invalid code." |
| LegacySignup.HandleSubmit | signup/page.tsx:16-50 | the page moves to the landing page iff it shows the success alert |
| LegacySignup.SuccessIffValid | signup/page.tsx:20-49 | the success alert and the move to `/landingpage` happen iff the trimmed email and the untrimmed password both pass |
| LegacySignup.EmailErrorFirst | signup/page.tsx:26-40 | an invalid email is reported with the "Invalid Email" alert, before any password error and instead of it |
| LegacySignup.AgreesWithCurrentPage | signup/page.tsx:23-45 | the old page succeeds exactly when the current page would send its request, and otherwise shows the same error alert |
| Header.UrlLang | components/header.tsx:17 | the first path segment exists iff the path contains `/`, and it contains no `/` |
| Header.UrlLangOfPath | components/header.tsx:17 | the first segment of `/seg` and of `/seg/rest` is `seg` |
| Header.DetectLang | components/header.tsx:18-25 | the detected language is always one of `et`, `en`, `fr` |
| Header.LocaleEffect | components/header.tsx:16-31 | the shown language is supported, and the cookie is written iff it does not already hold that language; the value written is that language |
| Header.SupportedCookieWins | components/header.tsx:20-22 | a supported cookie decides the language whatever the path is, and is not rewritten |
| Header.PathThenDefault | components/header.tsx:17-25 | without a supported cookie, a supported first segment decides; failing that the result is `et` |
| Header.UnsupportedCookieOverwritten | components/header.tsx:20-30 | an unsupported cookie is always overwritten, with a language different from it |
| Header.LocaleEffectIdempotent | components/header.tsx:16-31 | after the effect the cookie holds the shown language; running it again on any path shows the same language and writes nothing |
| Middleware.CookieOrDefault | middleware.ts:4 | the language used for the redirect is never empty |
| Middleware.HandleRequest | middleware.ts:3-12 | a redirect happens iff the path is exactly `/` |
| Middleware.RedirectTarget | middleware.ts:4-11 | `/` goes to `/` plus the cookie, or to `/et` when the cookie is missing or empty; every other path passes through |
| Middleware.CookieNotChecked | middleware.ts:4-8 | the cookie is used verbatim: an unsupported `de` redirects to `/de` |
| Middleware.RedirectLandsOnDetectedLang | middleware.ts:4-8 | for a missing cookie or one made of ASCII letters, digits and `-`, on every page `/<lang>/a/…` under the prefix the root redirects to (the pages whose layout mounts the header), the header shows the cookie's language if it is supported and `et` otherwise |
| NewIdea.FindIndex | app/authenticated/new_idea/page.tsx:61 | the lookup finds the first category with that name, and fails iff no category has that name |
| NewIdea.Remove | app/authenticated/new_idea/page.tsx:65 | the filter removes every occurrence of the id and keeps every other id as often as before, so the list gets strictly shorter when the id was present |
| NewIdea.RemoveAbsent | app/authenticated/new_idea/page.tsx:65 | filtering out an id that is not present changes nothing |
| NewIdea.RemoveAppend | app/authenticated/new_idea/page.tsx:65 | filtering distributes over concatenation, so the other ids keep their order |
| NewIdea.RemoveKeepsNoDuplicates | app/authenticated/new_idea/page.tsx:65 | filtering keeps a duplicate-free list duplicate-free |
| NewIdea.ToggleFlipsMembership | app/authenticated/new_idea/page.tsx:63-67 | toggling flips whether the id is present and leaves every other id's presence alone |
| NewIdea.ToggleShape | app/authenticated/new_idea/page.tsx:63-67 | an absent id is appended at the end; a present id disappears entirely |
| NewIdea.ToggleKeepsNoDuplicates | app/authenticated/new_idea/page.tsx:63-67 | toggling keeps the tags duplicate-free |
| NewIdea.ToggleTwiceRestores | app/authenticated/new_idea/page.tsx:63-67 | from a list without the id, toggling it twice restores the list |
| NewIdea.TagChangeCases | app/authenticated/new_idea/page.tsx:60-69 | a name with no category, or whose first category has id 0, leaves the tags unchanged; otherwise that category's id is toggled |
| NewIdea.ToIdeaData | app/authenticated/new_idea/page.tsx:92-97 | `is_anonymus` is always 0 or 1 |
| NewIdea.IdeaDataRoundTrip | app/authenticated/new_idea/page.tsx:92-97 | the payload decodes back to the form: `categories` is exactly the tags, and `is_anonymus` is 1 iff the idea is anonymous |
| NewIdea.HandleSubmit | app/authenticated/new_idea/page.tsx:71-128 | the success banner shows iff a redirect to the new idea is scheduled |
| NewIdea.SubmitSendsAndResets | app/authenticated/new_idea/page.tsx:73-120 | the payload is sent iff the token is present and accepted, and it is the form before the submit; title, tags, description and the anonymous flag are cleared iff the post succeeded; otherwise the form is kept and an alert shown |
| Voting.ResetCard | app/authenticated/voting/page.tsx:46-49 | the offset becomes 0 and dragging stops; the refs are untouched |
| Voting.PointerDown | app/authenticated/voting/page.tsx:51-54 | the press records `startX` and starts dragging, and leaves `currentX` and the offset as they were |
| Voting.SubmitVote | app/authenticated/voting/page.tsx:81-92 | a vote request goes out iff there is an idea on the card |
| Voting.PointerUp | app/authenticated/voting/page.tsx:63-78 | a release with no recorded press changes nothing; every release leaves `startX` cleared |
| Voting.PointerCancel | app/authenticated/voting/page.tsx:149 | a cancelled gesture only resets the card: offset 0 and not dragging, while `startX`, `currentX`, the idea and the loading flag stay as they were |
| Voting.IdeaArrived | app/authenticated/voting/page.tsx:95-103 | the page shows the next idea (or none), stops loading, and resets the card |
| Voting.ClassifyThresholds | app/authenticated/voting/page.tsx:66-75 | travel > 100 likes, travel < −100 dislikes, and travel in [−100, 100] votes nothing, so ±100 exactly does not vote, while a fractional travel of 100.5 likes |
| Voting.PointerUpOutcome | app/authenticated/voting/page.tsx:63-78 | after a press, the release sends the classified vote for the idea shown, iff the travel votes and an idea is shown; without a vote it only resets the card and clears `startX` |
| Voting.PointerUpWithoutIdea | app/authenticated/voting/page.tsx:69-82 | with no idea shown, a voting release sends nothing and changes nothing but `startX` |
| Voting.PointerMoveFollows | app/authenticated/voting/page.tsx:56-61 | a move changes the card only while dragging from a recorded press, and then the offset is clientX − startX |
| Voting.TapVotesWithStaleCurrentX | app/authenticated/voting/page.tsx:51-78 | as written, a tap with no move votes using a stale `currentX`: on a fresh card a tap at x = 150 dislikes, and after a right swipe a tap where it began likes the next idea |
| Voting.PointerDownCorrected | app/authenticated/voting/page.tsx:51-54 | the corrected press also sets `currentX` to the press position |
| Voting.CorrectedGestureVotesOnTravel | app/authenticated/voting/page.tsx:51-78 | with the corrected press a tap never votes, and press–move–release votes exactly as the move's travel classifies |

## Findings

| source | as written | input that shows it | evidently intended | confidence | as-written member | corrected member |
|---|---|---|---|---|---|---|
| app/authenticated/voting/page.tsx:51-54 | pointer-down sets `startX` but leaves `currentX` at the last move's value, or at its initial 0; pointer-up measures `currentX − startX` | on a freshly loaded card, press and release at clientX 150 with no move: travel −150 sends a dislike | a press starts `currentX` at the press position, so a tap has travel 0 and votes nothing | not executed; high | Voting.TapVotesWithStaleCurrentX | Voting.CorrectedGestureVotesOnTravel |

The voting model `Voting.PointerDown` keeps the code as written, so the
discrepancy stays visible. `Voting.PointerDownCorrected` is the fix. Its
lemma shows that with the fix, the travel at release is always measured
from the press.

## Left out

- Voting.PointerUp: the travel `currentX − startX` is subtracted exactly
  here, while JavaScript rounds the difference of two doubles. A travel
  within rounding error of ±100 may be classified differently: a press at
  0.2 and a move to 100.2 give exactly 100 in JavaScript, so no vote, but
  a little more than 100 here.
- Network, cookies, navigation and timers. `fetch`, `Cookie.get/set`,
  `router.push` and `setTimeout` become parameters and returned values.
  Delays (2 s, 3 s) are not modelled.
- React scheduling. Handlers see the latest state. The model does not
  capture a closure reading a stale `isDragging` or `idea` before a
  re-render.
- The voting overlay opacity, because it is floating-point.
- Middleware.HandleRequest: the redirect location is the path `/` + cookie.
  The absolute URL that `new URL(…, request.url)` resolves it to is not
  modelled.
- Middleware.RedirectLandsOnDetectedLang: covers only cookies that URL
  parsing keeps verbatim (ASCII letters, digits, `-`). A cookie with `?` or
  `#` lands on a shorter path, and `.` or `..` resolve back to `/`, which
  redirects to itself. Modelling those needs the URL parser.
- The browser's handling of the `type="email"` inputs on both sign-up
  pages. It cleans the value and blocks the submit for a value that is not
  an HTML email address, such as `ä@tpl.edu.ee`. The handlers are modelled
  on whatever value reaches them. So `SignupPage.SignupRequestIffValid`
  and `LegacySignup.SuccessIffValid` speak about submits that happen.
- The server's `message` is taken to be a string or absent. A number would
  be shown as text, and an object would make the alert fail to render.
  `SignupPage.ReplyBody` cannot express either.
- The one-time-code widget's own input filtering (`maxLength`,
  `REGEXP_ONLY_DIGITS`) belongs to a library that is not part of this
  model. `SignupPage.SetOtp` accepts any string, and the handler's own
  check is modelled.
- `response.json()` failing. In the sign-up handlers this is folded into
  "not JSON", which lands in the `catch`. In the idea submit it is folded
  into `Failed`.
- A rejected profile request before the idea post. It is outside the
  `try`, so it escapes the handler. `meOk` covers only replies that
  arrive.
- Category ids are integers. JavaScript's other falsy number, `NaN`, is
  not modelled.
- The idea page's tag rendering and the `Select`'s displayed value.
- Lone UTF-16 surrogates. A Dafny `char` cannot hold one.
- The login API handler, the `zod`-based login form, the "my ideas" status
  colours, and the static and mock pages. None of them has a rule to model
  here.

=== FILE: header.dfy ===
/** The header's language effect (`components/header.tsx`): on every path
    change it picks the display language from the `lang` cookie, else from
    the first path segment, else Estonian, and rewrites the cookie when it
    is missing or differs. The cookie jar is a parameter and the write is
    returned instead of performed. */
module Header {
  import opened Optional
  import opened JsString

  const SupportedLangs: seq<string> := ["et", "en", "fr"]
  const DefaultLang: string := "et"

  predicate IsSupported(lang: string) {
    lang in SupportedLangs
  }

  /** JavaScript truthiness of a possibly undefined string. */
  predicate Truthy(v: Option<string>) {
    v.Some? && v.value != ""
  }

  /** `pathname.split('/')[1]`: the text between the first and second `/`,
      undefined when the path has no `/` at all. */
  function UrlLang(pathname: string): (seg: Option<string>)
    ensures seg.Some? <==> '/' in pathname
    ensures seg.Some? ==> '/' !in seg.value
  {
    var parts := Split(pathname, '/');
    if |parts| > 1 then
      assert pathname[|parts[0]|] == '/';
      Some(parts[1])
    else
      None
  }

  /** The first segment of `/seg` and of `/seg/rest` is `seg`. */
  lemma UrlLangOfPath(seg: string, rest: string)
    requires '/' !in seg
    ensures UrlLang("/" + seg) == Some(seg)
    ensures UrlLang("/" + seg + "/" + rest) == Some(seg)
  {
    assert "/" + seg == "" + ['/'] + seg;
    SplitAfterPiece("", seg, '/');
    SplitOfPiece(seg, '/');
    assert "/" + seg + "/" + rest == "" + ['/'] + (seg + ['/'] + rest);
    SplitAfterPiece("", seg + ['/'] + rest, '/');
    SplitAfterPiece(seg, rest, '/');
  }

  /** `detectedLang`: a supported cookie, else a supported first path
      segment, else the default. */
  function DetectLang(cookie: Option<string>, pathname: string): (lang: string)
    ensures IsSupported(lang)
  {
    if Truthy(cookie) && IsSupported(cookie.value) then cookie.value
    else
      var url := UrlLang(pathname);
      if Truthy(url) && IsSupported(url.value) then url.value else DefaultLang
  }

  /** The effect's result: the language shown and the cookie value written, if any. */
  datatype Effect = Effect(lang: string, write: Option<string>)

  /** The first `useEffect` of the header. */
  function LocaleEffect(cookie: Option<string>, pathname: string): (e: Effect)
    ensures IsSupported(e.lang)
    ensures e.write.Some? <==> cookie != Some(e.lang)
    ensures e.write.Some? ==> e.write.value == e.lang
  {
    var lang := DetectLang(cookie, pathname);
    if !Truthy(cookie) || cookie.value != lang then Effect(lang, Some(lang)) else Effect(lang, None)
  }

  /** The cookie after the effect's write, if any. */
  function CookieAfter(cookie: Option<string>, e: Effect): Option<string> {
    if e.write.Some? then e.write else cookie
  }

  /** A supported cookie decides the language whatever the path says, and is
      not rewritten. */
  lemma SupportedCookieWins(lang: string, pathname: string)
    requires IsSupported(lang)
    ensures LocaleEffect(Some(lang), pathname) == Effect(lang, None)
  {
  }

  /** Without a supported cookie, a supported first segment decides, and
      otherwise the default does. */
  lemma PathThenDefault(cookie: Option<string>, pathname: string)
    requires !(cookie.Some? && IsSupported(cookie.value))
    ensures var url := UrlLang(pathname);
      url.Some? && IsSupported(url.value) ==> DetectLang(cookie, pathname) == url.value
    ensures var url := UrlLang(pathname);
      !(url.Some? && IsSupported(url.value)) ==> DetectLang(cookie, pathname) == DefaultLang
  {
  }

  /** An unsupported cookie value is always replaced, by a different value. */
  lemma UnsupportedCookieOverwritten(value: string, pathname: string)
    requires !IsSupported(value)
    ensures var e := LocaleEffect(Some(value), pathname);
      e.write == Some(e.lang) && e.lang != value
  {
  }

  /** After the effect the cookie holds the shown language, so running the
      effect again, on this path or any other, shows the same language and
      writes nothing. */
  lemma LocaleEffectIdempotent(cookie: Option<string>, pathname: string, nextPath: string)
    ensures var e := LocaleEffect(cookie, pathname);
      CookieAfter(cookie, e) == Some(e.lang) &&
      LocaleEffect(CookieAfter(cookie, e), nextPath) == Effect(e.lang, None)
  {
    var e := LocaleEffect(cookie, pathname);
    SupportedCookieWins(e.lang, nextPath);
  }
}

=== FILE: js_string.dfy ===
/** The parts of JavaScript's string semantics the page handlers rely on:
    the `\s` class and `String.prototype.trim`, `.length` counted in UTF-16
    code units, `endsWith`, and `split` on a one-character separator.
    A Dafny `char` is a Unicode scalar value; JavaScript strings are UTF-16,
    so a character above U+FFFF is one `char` here and two code units there. */
module JsString {

  /** A character matched by JavaScript's `\s`. `trim` removes exactly the
      same set (ECMAScript WhiteSpace plus LineTerminator). The trim lemmas hold
      for any set; the email proofs use only the facts in `IsWsFacts`. */
  predicate IsWs(c: char) {
    || c in {'\t', '\n', '\U{000B}', '\U{000C}', '\r', ' ', '\U{00A0}', '\U{1680}',
             '\U{2028}', '\U{2029}', '\U{202F}', '\U{205F}', '\U{3000}', '\U{FEFF}'}
    || ('\U{2000}' <= c <= '\U{200A}')
  }

  /** `@`, `.` and the lower-case ASCII letters are not whitespace. */
  lemma IsWsFacts()
    ensures !IsWs('@') && !IsWs('.')
    ensures forall c: char :: 'a' <= c <= 'z' ==> !IsWs(c)
  {
  }

  predicate AllWs(s: string) {
    forall i :: 0 <= i < |s| ==> IsWs(s[i])
  }

  /** Neither the first nor the last character is whitespace. */
  predicate Unpadded(s: string) {
    |s| == 0 || (!IsWs(s[0]) && !IsWs(s[|s| - 1]))
  }

  /** Drops leading whitespace: the result is the suffix after a run of
      whitespace, and it does not start with whitespace. */
  function TrimStart(s: string): (r: string)
    ensures |r| <= |s| && r == s[|s| - |r|..]
    ensures AllWs(s[..|s| - |r|])
    ensures |r| > 0 ==> !IsWs(r[0])
    decreases |s|
  {
    if |s| > 0 && IsWs(s[0]) then TrimStart(s[1..]) else s
  }

  /** Drops trailing whitespace: the result is the prefix before a run of
      whitespace, and it does not end with whitespace. */
  function TrimEnd(s: string): (r: string)
    ensures |r| <= |s| && r == s[..|r|]
    ensures AllWs(s[|r|..])
    ensures |r| > 0 ==> !IsWs(r[|r| - 1])
    decreases |s|
  {
    if |s| > 0 && IsWs(s[|s| - 1]) then TrimEnd(s[..|s| - 1]) else s
  }

  /** `s` is `r` with whitespace (possibly none) added on both sides. */
  ghost predicate PadsTo(s: string, r: string) {
    exists i, j :: 0 <= i <= j <= |s| && s[i..j] == r && AllWs(s[..i]) && AllWs(s[j..])
  }

  /** `String.prototype.trim`: the unique unpadded string that `s` pads. */
  function Trim(s: string): (r: string)
    ensures Unpadded(r)
    ensures PadsTo(s, r)
  {
    var t := TrimStart(s);
    var r := TrimEnd(t);
    var i := |s| - |t|;
    assert s[i..i + |r|] == r;
    assert s[i + |r|..] == t[|r|..];
    r
  }

  /** Trim leaves a string alone exactly when it is already unpadded. */
  lemma TrimFixedIffUnpadded(s: string)
    ensures Trim(s) == s <==> Unpadded(s)
  {
    if Unpadded(s) && |s| > 0 {
      assert TrimStart(s) == s;
      assert TrimEnd(s) == s;
    }
  }

  /** Trimming twice is trimming once. */
  lemma TrimIdempotent(s: string)
    ensures Trim(Trim(s)) == Trim(s)
  {
    TrimFixedIffUnpadded(Trim(s));
  }

  lemma {:induction false} TrimStartAfterWs(w: string, rest: string)
    requires AllWs(w)
    requires |rest| == 0 || !IsWs(rest[0])
    ensures TrimStart(w + rest) == rest
    decreases |w|
  {
    if |w| > 0 {
      assert (w + rest)[1..] == w[1..] + rest;
      TrimStartAfterWs(w[1..], rest);
    } else {
      assert w + rest == rest;
    }
  }

  lemma {:induction false} TrimEndBeforeWs(rest: string, w: string)
    requires AllWs(w)
    requires |rest| == 0 || !IsWs(rest[|rest| - 1])
    ensures TrimEnd(rest + w) == rest
    decreases |w|
  {
    if |w| > 0 {
      var s := rest + w;
      assert s[..|s| - 1] == rest + w[..|w| - 1];
      TrimEndBeforeWs(rest, w[..|w| - 1]);
    } else {
      assert rest + w == rest;
    }
  }

  /** Trim strips exactly the added whitespace: padding an unpadded string
      on both sides and trimming gives the string back. */
  lemma TrimOfPadded(w1: string, e: string, w2: string)
    requires AllWs(w1) && AllWs(w2) && Unpadded(e)
    ensures Trim(w1 + e + w2) == e
  {
    if |e| > 0 {
      assert w1 + e + w2 == w1 + (e + w2);
      TrimStartAfterWs(w1, e + w2);
      TrimEndBeforeWs(e, w2);
    } else {
      var s := w1 + e + w2;
      assert AllWs(s) by {
        forall i | 0 <= i < |s| ensures IsWs(s[i]) {
          if i < |w1| { assert s[i] == w1[i]; } else { assert s[i] == w2[i - |w1|]; }
        }
      }
      assert s == s + "";
      TrimStartAfterWs(s, "");
    }
  }

  /** Number of UTF-16 code units one character occupies. */
  function Utf16Units(c: char): nat {
    if c as int >= 0x1_0000 then 2 else 1
  }

  /** A character in the Basic Multilingual Plane (one UTF-16 code unit). */
  predicate IsBmp(c: char) {
    c as int < 0x1_0000
  }

  /** JavaScript's `.length`: the string's size in UTF-16 code units. */
  function Utf16Length(s: string): (n: nat)
    ensures |s| <= n <= 2 * |s|
    ensures (forall i :: 0 <= i < |s| ==> IsBmp(s[i])) ==> n == |s|
  {
    if |s| == 0 then 0 else Utf16Units(s[0]) + Utf16Length(s[1..])
  }

  /** `String.prototype.endsWith`. */
  predicate EndsWith(s: string, suffix: string) {
    |suffix| <= |s| && s[|s| - |suffix|..] == suffix
  }

  /** Inverse of `Split`: the parts glued back with `sep` between them. */
  function Join(parts: seq<string>, sep: char): string
    requires |parts| > 0
  {
    if |parts| == 1 then parts[0] else parts[0] + [sep] + Join(parts[1..], sep)
  }

  /** `String.prototype.split` with a one-character separator: the
      separator-free pieces whose join is `s`. An empty string gives one
      empty piece, as in JavaScript. */
  function Split(s: string, sep: char): (parts: seq<string>)
    ensures |parts| > 0
    ensures forall i :: 0 <= i < |parts| ==> sep !in parts[i]
    ensures Join(parts, sep) == s
  {
    if |s| == 0 then [""]
    else
      var rest := Split(s[1..], sep);
      if s[0] == sep then
        assert ([""] + rest)[1..] == rest;
        assert s == [sep] + s[1..];
        [""] + rest
      else
        var parts := [[s[0]] + rest[0]] + rest[1..];
        assert parts[1..] == rest[1..];
        assert s == [s[0]] + s[1..];
        parts
  }

  /** Splitting after a separator-free first piece peels that piece off. */
  lemma {:induction false} SplitAfterPiece(a: string, b: string, sep: char)
    requires sep !in a
    ensures Split(a + [sep] + b, sep) == [a] + Split(b, sep)
    decreases |a|
  {
    if |a| == 0 {
      assert a + [sep] + b == [sep] + b;
      assert ([sep] + b)[1..] == b;
    } else {
      var s := a + [sep] + b;
      assert s[1..] == a[1..] + [sep] + b;
      SplitAfterPiece(a[1..], b, sep);
      assert [a[0]] + a[1..] == a;
    }
  }

  /** A separator-free string splits into itself alone. */
  lemma {:induction false} SplitOfPiece(a: string, sep: char)
    requires sep !in a
    ensures Split(a, sep) == [a]
    decreases |a|
  {
    if |a| > 0 {
      SplitOfPiece(a[1..], sep);
      assert [a[0]] + a[1..] == a;
    }
  }
}

=== FILE: legacy_signup.dfy ===
/** The older sign-up page `signup/page.tsx`: the same email and password
    checks as the current page, but on success it only shows a success
    alert and schedules a move to the landing page; it sends nothing. */
module LegacySignup {
  import opened Optional
  import opened JsString
  import opened SignupRules
  import SignupPage

  /** The alert the page shows. */
  datatype Alert = Alert(alertType: SignupPage.AlertType, title: string, message: string)

  /** The alert after a submit, and the path opened two seconds later. */
  datatype Submitted = Submitted(alert: Alert, redirect: Option<string>)

  const SuccessTitle: string := "Success"
  const SuccessMessage: string := "You have successfully signed up. Redirecting..."
  const LandingPath: string := "/landingpage"

  /** `handleSubmit` on the raw email and password inputs. */
  function HandleSubmit(rawEmail: string, rawPassword: string): (s: Submitted)
    ensures s.redirect.Some? <==> s.alert.alertType == SignupPage.Success
  {
    var email := Trim(rawEmail);
    if !IsValidEmail(email) then
      Submitted(Alert(SignupPage.Error, SignupPage.InvalidEmailTitle, SignupPage.InvalidEmailMessage), None)
    else if !IsValidPassword(rawPassword) then
      Submitted(Alert(SignupPage.Error, SignupPage.InvalidPasswordTitle, SignupPage.InvalidPasswordMessage), None)
    else
      Submitted(Alert(SignupPage.Success, SuccessTitle, SuccessMessage), Some(LandingPath))
  }

  /** The success alert, and the move to the landing page, happen iff the
      trimmed email and the untrimmed password both pass. */
  lemma SuccessIffValid(rawEmail: string, rawPassword: string)
    ensures var s := HandleSubmit(rawEmail, rawPassword);
      (s.alert.alertType == SignupPage.Success <==> IsValidEmail(Trim(rawEmail)) && IsValidPassword(rawPassword)) &&
      (s.redirect.Some? ==> s.redirect.value == LandingPath && s.alert.title == SuccessTitle)
  {
  }

  /** An invalid email is reported before, and instead of, any password error. */
  lemma EmailErrorFirst(rawEmail: string, rawPassword: string)
    ensures !IsValidEmail(Trim(rawEmail)) ==>
      HandleSubmit(rawEmail, rawPassword).alert ==
        Alert(SignupPage.Error, SignupPage.InvalidEmailTitle, SignupPage.InvalidEmailMessage)
  {
  }

  /** Both pages decide alike: the old page succeeds exactly when the current
      page would send its sign-up request, and they show the same error
      alert otherwise. */
  lemma AgreesWithCurrentPage(st: SignupPage.State, form: SignupPage.SignupForm)
    ensures var legacy := HandleSubmit(form.email, form.password);
      var cur := SignupPage.HandleSignup(st, form);
      (legacy.alert.alertType == SignupPage.Success <==> cur.request.Some?) &&
      (cur.request.None? ==>
        legacy.alert == Alert(cur.state.alertType, cur.state.alertTitle, cur.state.alertMessage))
  {
    var email := Trim(form.email);
    match SignupPage.CheckForm(form)
    case EmailRejected =>
      assert !IsValidEmail(email);
    case PasswordRejected =>
      assert IsValidEmail(email) && !IsValidPassword(form.password);
    case Accepted =>
      assert IsValidEmail(email) && IsValidPassword(form.password);
  }
}

=== FILE: middleware.dfy ===
/** The Next.js middleware (`middleware.ts`): a request for the site root is
    redirected to the language prefix named by the `lang` cookie, Estonian
    by default; every other request passes through. */
module Middleware {
  import opened Optional
  import Header

  datatype Decision = Redirect(location: string) | Next

  /** `request.cookies.get('lang')?.value || 'et'`. */
  function CookieOrDefault(cookie: Option<string>): (lang: string)
    ensures lang != ""
  {
    if Header.Truthy(cookie) then cookie.value else Header.DefaultLang
  }

  /** `middleware(request)` on the cookie and the request path. */
  function HandleRequest(cookie: Option<string>, pathname: string): (d: Decision)
    ensures d.Redirect? <==> pathname == "/"
  {
    if pathname == "/" then Redirect("/" + CookieOrDefault(cookie)) else Next
  }

  /** The root goes to `/` plus the cookie, or to `/et` when the cookie is
      missing or empty; every other path passes through. */
  lemma RedirectTarget(cookie: Option<string>, pathname: string)
    ensures pathname == "/" && Header.Truthy(cookie) ==> HandleRequest(cookie, pathname) == Redirect("/" + cookie.value)
    ensures pathname == "/" && !Header.Truthy(cookie) ==> HandleRequest(cookie, pathname) == Redirect("/et")
    ensures pathname != "/" ==> HandleRequest(cookie, pathname) == Next
  {
  }

  /** The cookie is used verbatim: an unsupported language is redirected to. */
  lemma CookieNotChecked()
    ensures !Header.IsSupported("de") && HandleRequest(Some("de"), "/") == Redirect("/de")
  {
  }

  /** A cookie value that `new URL` keeps verbatim as the path: ASCII
      letters, digits and `-` only, so no `/`, `?`, `#`, `%`, dot segment
      or character that would be percent-encoded. */
  predicate PathSafe(v: string) {
    forall i :: 0 <= i < |v| ==>
      'a' <= v[i] <= 'z' || 'A' <= v[i] <= 'Z' || '0' <= v[i] <= '9' || v[i] == '-'
  }

  /** The header is mounted only by the layout of `/<lang>/a/…`. On every
      such page under the prefix the root redirects to, it shows the
      cookie's language when it is supported and the default otherwise;
      the middleware's default is the header's. */
  lemma RedirectLandsOnDetectedLang(cookie: Option<string>, rest: string)
    requires cookie.None? || PathSafe(cookie.value)
    ensures var d := HandleRequest(cookie, "/");
      d.Redirect? &&
      Header.DetectLang(cookie, d.location + "/a/" + rest) ==
        (if cookie.Some? && Header.IsSupported(cookie.value) then cookie.value else Header.DefaultLang)
  {
    var lang := CookieOrDefault(cookie);
    Header.UrlLangOfPath(lang, "a/" + rest);
    assert "/" + lang + "/a/" + rest == "/" + lang + "/" + ("a/" + rest);
  }
}

=== FILE: new_idea.dfy ===
/** The new-idea page (`app/authenticated/new_idea/page.tsx`): picking a
    category toggles its id in the list of tags, the form is encoded into
    the idea payload, and a successful submit clears the form. The category
    list, the session token and the server's replies are parameters. */
module NewIdea {
  import opened Optional

  /** A category as the categories endpoint returns it. */
  datatype Category = Category(id: int, name: string)

  /** The form's React state. */
  datatype Form = Form(title: string, tags: seq<int>, description: string, isAnonymous: bool)

  const EmptyForm: Form := Form("", [], "", false)

  /** The JSON payload of the idea request; `is_anonymus` is a number. */
  datatype IdeaData = IdeaData(title: string, categories: seq<int>, description: string, isAnonymus: int)

  /** No id occurs twice. */
  predicate NoDuplicates(s: seq<int>) {
    forall i, j :: 0 <= i < j < |s| ==> s[i] != s[j]
  }

  /** The position of the first category named `name`, if any. */
  function FindIndex(categories: seq<Category>, name: string): (k: Option<nat>)
    ensures k.None? <==> forall i :: 0 <= i < |categories| ==> categories[i].name != name
    ensures k.Some? ==>
      && k.value < |categories|
      && categories[k.value].name == name
      && forall j :: 0 <= j < k.value ==> categories[j].name != name
  {
    if |categories| == 0 then None
    else if categories[0].name == name then Some(0)
    else
      match FindIndex(categories[1..], name)
      case None =>
        assert forall i :: 0 < i < |categories| ==> categories[i] == categories[1..][i - 1];
        None
      case Some(i) =>
        assert forall j :: 0 < j <= i ==> categories[j] == categories[1..][j - 1];
        Some(i + 1)
  }

  /** `categories.find(cat => cat.name === name)`: the first category with that name. */
  function FindByName(categories: seq<Category>, name: string): Option<Category> {
    match FindIndex(categories, name)
    case None => None
    case Some(i) => Some(categories[i])
  }

  /** `prevTags.filter(id => id !== x)`: every occurrence of `x` removed,
      every other id kept as often as it was. */
  function Remove(tags: seq<int>, x: int): (r: seq<int>)
    ensures x !in r
    ensures forall y :: y != x ==> multiset(r)[y] == multiset(tags)[y]
    ensures |r| <= |tags|
    ensures x in tags ==> |r| < |tags|
  {
    if |tags| == 0 then []
    else if tags[0] == x then
      assert tags == [tags[0]] + tags[1..];
      Remove(tags[1..], x)
    else
      assert tags == [tags[0]] + tags[1..];
      [tags[0]] + Remove(tags[1..], x)
  }

  /** The update `handleTagChange` applies to the tags for id `x`. */
  function Toggle(tags: seq<int>, x: int): seq<int> {
    if x in tags then Remove(tags, x) else tags + [x]
  }

  /** `handleTagChange(name)`: look the category up by name and toggle its id
      unless the lookup failed or the id is falsy (0). */
  function HandleTagChange(categories: seq<Category>, tags: seq<int>, name: string): seq<int> {
    var found := FindByName(categories, name);
    if found.Some? && found.value.id != 0 then Toggle(tags, found.value.id) else tags
  }

  /** Toggling flips the membership of `x` and no other id's. */
  lemma ToggleFlipsMembership(tags: seq<int>, x: int)
    ensures x in Toggle(tags, x) <==> x !in tags
    ensures forall y :: y != x ==> (y in Toggle(tags, x) <==> y in tags)
  {
    forall y | y != x ensures y in Toggle(tags, x) <==> y in tags {
      if x in tags {
        assert y in Remove(tags, x) <==> multiset(Remove(tags, x))[y] > 0;
      }
    }
  }

  /** An absent id is appended at the end; a present one disappears entirely. */
  lemma ToggleShape(tags: seq<int>, x: int)
    ensures x !in tags ==> Toggle(tags, x) == tags + [x]
    ensures x in tags ==> x !in Toggle(tags, x) && |Toggle(tags, x)| < |tags|
  {
  }

  /** Removing an id that is not there changes nothing. */
  lemma {:induction false} RemoveAbsent(tags: seq<int>, x: int)
    requires x !in tags
    ensures Remove(tags, x) == tags
  {
    if |tags| > 0 {
      RemoveAbsent(tags[1..], x);
      assert tags == [tags[0]] + tags[1..];
    }
  }

  /** Removal works piecewise and so keeps the order of the other ids. */
  lemma {:induction false} RemoveAppend(a: seq<int>, b: seq<int>, x: int)
    ensures Remove(a + b, x) == Remove(a, x) + Remove(b, x)
  {
    if |a| == 0 {
      assert a + b == b;
    } else {
      assert (a + b)[1..] == a[1..] + b;
      RemoveAppend(a[1..], b, x);
    }
  }

  /** Removal keeps "no duplicates". */
  lemma {:induction false} RemoveKeepsNoDuplicates(tags: seq<int>, x: int)
    requires NoDuplicates(tags)
    ensures NoDuplicates(Remove(tags, x))
  {
    if |tags| > 0 {
      RemoveKeepsNoDuplicates(tags[1..], x);
      var rest := Remove(tags[1..], x);
      if tags[0] != x {
        assert tags[0] !in tags[1..];
        assert multiset(rest)[tags[0]] == multiset(tags[1..])[tags[0]] == 0;
        assert tags[0] !in rest;
      }
    }
  }

  /** Toggling keeps "no duplicates". */
  lemma ToggleKeepsNoDuplicates(tags: seq<int>, x: int)
    requires NoDuplicates(tags)
    ensures NoDuplicates(Toggle(tags, x))
  {
    if x in tags { RemoveKeepsNoDuplicates(tags, x); }
  }

  /** From a list without `x`, toggling `x` twice restores the list. */
  lemma ToggleTwiceRestores(tags: seq<int>, x: int)
    requires x !in tags
    ensures Toggle(Toggle(tags, x), x) == tags
  {
    assert x in tags + [x];
    RemoveAppend(tags, [x], x);
    RemoveAbsent(tags, x);
    assert Remove([x], x) == [];
  }

  /** A name that matches no category, or a category with id 0, leaves the
      tags unchanged; otherwise the category's id is toggled. */
  lemma TagChangeCases(categories: seq<Category>, tags: seq<int>, name: string)
    ensures (forall i :: 0 <= i < |categories| ==> categories[i].name != name) ==>
      HandleTagChange(categories, tags, name) == tags
    ensures FindByName(categories, name).Some? && FindByName(categories, name).value.id == 0 ==>
      HandleTagChange(categories, tags, name) == tags
    ensures FindByName(categories, name).Some? && FindByName(categories, name).value.id != 0 ==>
      HandleTagChange(categories, tags, name) == Toggle(tags, FindByName(categories, name).value.id)
  {
  }

  /** `ideaData`: the payload built from the form. */
  function ToIdeaData(f: Form): (d: IdeaData)
    ensures d.isAnonymus == 0 || d.isAnonymus == 1
  {
    IdeaData(f.title, f.tags, f.description, if f.isAnonymous then 1 else 0)
  }

  /** How the payload reads back: any non-zero flag is anonymous. */
  function FromIdeaData(d: IdeaData): Form {
    Form(d.title, d.categories, d.description, d.isAnonymus != 0)
  }

  /** The payload loses nothing: the tags are sent as they are and the flag
      is 1 exactly when the idea is anonymous. */
  lemma IdeaDataRoundTrip(f: Form)
    ensures FromIdeaData(ToIdeaData(f)) == f
    ensures ToIdeaData(f).categories == f.tags
    ensures ToIdeaData(f).isAnonymus == 1 <==> f.isAnonymous
  {
  }

  /** The reply to the idea request: success carries the new idea's id. */
  datatype PostOutcome = Created(ideaId: string) | Rejected | Failed

  /** What a submit leaves behind. */
  datatype Submitted = Submitted(
    form: Form,
    sent: Option<IdeaData>,
    alert: Option<string>,
    showSuccess: bool,
    redirect: Option<string>)

  const NotLoggedIn: string := "You must be logged in to submit an idea."
  const NotAuthorized: string := "You are not authorized."
  const SubmitRejected: string := "Failed to submit idea."
  const SubmitFailed: string := "An error occurred."

  /** `handleSubmit`: with a truthy session token and an accepted profile
      check, post the payload; clear the form only when the post succeeds.
      `meOk` is the profile request's `response.ok`. */
  function HandleSubmit(f: Form, token: Option<string>, meOk: bool, post: PostOutcome): (s: Submitted)
    ensures s.showSuccess <==> s.redirect.Some?
  {
    if token.None? || token.value == "" then Submitted(f, None, Some(NotLoggedIn), false, None)
    else if !meOk then Submitted(f, None, Some(NotAuthorized), false, None)
    else
      var data := ToIdeaData(f);
      match post
      case Created(id) => Submitted(EmptyForm, Some(data), None, true, Some("/ideapage/" + id))
      case Rejected => Submitted(f, Some(data), Some(SubmitRejected), false, None)
      case Failed => Submitted(f, Some(data), Some(SubmitFailed), false, None)
  }

  /** The payload is sent iff the token is present and accepted; it is the
      form as it was before the submit. The form is cleared iff the post
      succeeded, and otherwise left untouched. */
  lemma SubmitSendsAndResets(f: Form, token: Option<string>, meOk: bool, post: PostOutcome)
    ensures var s := HandleSubmit(f, token, meOk, post);
      (s.sent.Some? <==> token.Some? && token.value != "" && meOk) &&
      (s.sent.Some? ==> s.sent.value == ToIdeaData(f)) &&
      (s.showSuccess <==> s.sent.Some? && post.Created?) &&
      (s.showSuccess ==> s.form == Form("", [], "", false)) &&
      (!s.showSuccess ==> s.form == f && s.alert.Some?)
  {
  }
}

=== FILE: optional.dfy ===
/** A JavaScript value that may be `undefined` or `null`: a cookie that is
    not set, a `find` that matched nothing, a ref holding `null`. */
module Optional {

  datatype Option<+T> = None | Some(value: T)
}

=== FILE: signup_page.dfy ===
/** The sign-up page `app/signup/page.tsx`: a form phase that checks the
    email and password and posts them, and a code phase, entered on a 201
    reply, that checks the six-digit code and posts it with the email kept
    from the form. Each handler is split at its `await`: the first half
    returns the request it would send, the second half takes the server's
    outcome as a parameter. */
module SignupPage {
  import opened Optional
  import opened JsString
  import opened SignupRules

  datatype AlertType = Success | Error

  /** The page's React state. */
  datatype State = State(
    showAlert: bool,
    alertType: AlertType,
    alertTitle: string,
    alertMessage: string,
    otp: string,
    showOtpPopup: bool,
    userEmail: string)

  const Initial: State := State(false, Success, "", "", "", false, "")

  /** The input values as the submit handler reads them, after whatever
      the browser's `type="email"` field did to the email. */
  datatype SignupForm = SignupForm(email: string, firstName: string, lastName: string, password: string)

  /** JSON body of the sign-up request. */
  datatype SignupBody = SignupBody(email: string, firstName: string, lastName: string, password: string)

  /** JSON body of the code-verification request. */
  datatype OtpBody = OtpBody(email: string, code: string)

  /** What `response.json()` produced: it throws on a body that is not JSON;
      otherwise `data?.message` may be missing. */
  datatype ReplyBody = NotJson | Json(message: Option<string>)

  /** How a `fetch` ended: a reply with a status, or a rejected promise. */
  datatype Outcome = Reply(status: int, body: ReplyBody) | NetworkFailure

  /** A handler's new state and the request it issues, if any. */
  datatype Handled<R> = Handled(state: State, request: Option<R>)

  const InvalidEmailTitle: string := "Invalid Email"
  const InvalidEmailMessage: string := "Email must end with \"" + RequiredDomain + "\""
  const InvalidPasswordTitle: string := "Invalid Password"
  const InvalidPasswordMessage: string := "Password must be 8\U{2013}64 characters long"
  const SignupFailedTitle: string := "Signup Failed"
  const SignupFailedDefault: string := "Something went wrong"
  const NetworkErrorTitle: string := "Network Error"
  const NetworkErrorMessage: string := "Could not connect to server."
  const InvalidOtpTitle: string := "Invalid OTP"
  const InvalidOtpMessage: string := "Please enter a valid 6-digit verification code."
  const OtpFailedTitle: string := "OTP Failed"
  const OtpFailedDefault: string := "Invalid code."
  const VerifiedTitle: string := "Verified"
  const VerifiedMessage: string := "OTP verified! Redirecting to login..."
  const LoginPath: string := "/login"

  /** `showError`: an error alert with the given title and message. */
  function ShowError(st: State, title: string, message: string): State {
    st.(showAlert := true, alertType := Error, alertTitle := title, alertMessage := message)
  }

  /** JavaScript's `m || fallback` on an optional string: empty counts as missing. */
  function OrElse(m: Option<string>, fallback: string): (r: string)
    ensures m.Some? && m.value != "" ==> r == m.value
    ensures m.None? || m.value == "" ==> r == fallback
  {
    if m.Some? && m.value != "" then m.value else fallback
  }

  /** The outcome of the two client-side checks, email first. */
  datatype Verdict = EmailRejected | PasswordRejected | Accepted

  function CheckForm(form: SignupForm): Verdict {
    if !IsValidEmail(Trim(form.email)) then EmailRejected
    else if !IsValidPassword(form.password) then PasswordRejected
    else Accepted
  }

  /** The synchronous half of `handleSignup`. */
  function HandleSignup(st: State, form: SignupForm): (h: Handled<SignupBody>)
    ensures h.request.Some? ==> h.state == st
    ensures h.request.None? ==> h.state.showAlert && h.state.alertType == Error
  {
    match CheckForm(form)
    case EmailRejected => Handled(ShowError(st, InvalidEmailTitle, InvalidEmailMessage), None)
    case PasswordRejected => Handled(ShowError(st, InvalidPasswordTitle, InvalidPasswordMessage), None)
    case Accepted =>
      Handled(st, Some(SignupBody(Trim(form.email), Trim(form.firstName), Trim(form.lastName), form.password)))
  }

  /** The half of `handleSignup` after the request settles. */
  function HandleSignupOutcome(st: State, sent: SignupBody, outcome: Outcome): (st': State)
    ensures st'.otp == st.otp
  {
    match outcome
    case Reply(status, body) =>
      if status == 201 then st.(userEmail := sent.email, showOtpPopup := true, showAlert := false)
      else if body.NotJson? then ShowError(st, NetworkErrorTitle, NetworkErrorMessage)
      else ShowError(st, SignupFailedTitle, OrElse(body.message, SignupFailedDefault))
    case NetworkFailure => ShowError(st, NetworkErrorTitle, NetworkErrorMessage)
  }

  /** The code input's `onChange`. */
  function SetOtp(st: State, value: string): State {
    st.(otp := value)
  }

  /** The synchronous half of `handleVerifyOtp`. */
  function HandleVerifyOtp(st: State): (h: Handled<OtpBody>)
    ensures h.request.Some? ==> h.state == st
  {
    if !IsValidOtp(st.otp) then Handled(ShowError(st, InvalidOtpTitle, InvalidOtpMessage), None)
    else Handled(st, Some(OtpBody(st.userEmail, st.otp)))
  }

  /** The page after verification, and the path it navigates to two seconds later. */
  datatype Verified = Verified(state: State, redirect: Option<string>)

  /** The half of `handleVerifyOtp` after the request settles. */
  function HandleOtpOutcome(st: State, outcome: Outcome): (v: Verified)
    ensures v.state.showAlert
    ensures v.state.showOtpPopup == st.showOtpPopup && v.state.userEmail == st.userEmail
  {
    match outcome
    case Reply(status, body) =>
      if status == 200 then
        Verified(st.(alertType := Success, alertTitle := VerifiedTitle, alertMessage := VerifiedMessage,
                     showAlert := true), Some(LoginPath))
      else if body.NotJson? then Verified(ShowError(st, NetworkErrorTitle, NetworkErrorMessage), None)
      else Verified(ShowError(st, OtpFailedTitle, OrElse(body.message, OtpFailedDefault)), None)
    case NetworkFailure => Verified(ShowError(st, NetworkErrorTitle, NetworkErrorMessage), None)
  }

  /** A sign-up request is issued iff the trimmed email and the untrimmed
      password both pass; it carries exactly those values. */
  lemma SignupRequestIffValid(st: State, form: SignupForm)
    ensures HandleSignup(st, form).request.Some? <==>
      IsValidEmail(Trim(form.email)) && IsValidPassword(form.password)
    ensures HandleSignup(st, form).request.Some? ==>
      var b := HandleSignup(st, form).request.value;
      b.email == Trim(form.email) && b.password == form.password &&
      b.firstName == Trim(form.firstName) && b.lastName == Trim(form.lastName)
  {
  }

  /** An invalid email is reported as such whatever the password is. */
  lemma EmailErrorTakesPrecedence(st: State, form: SignupForm, otherPassword: string)
    ensures !IsValidEmail(Trim(form.email)) ==>
      var h := HandleSignup(st, form);
      h.request.None? && h.state.alertTitle == InvalidEmailTitle &&
      h.state == HandleSignup(st, form.(password := otherPassword)).state
  {
  }

  /** A valid email with a bad password reports the password. */
  lemma PasswordErrorAfterEmail(st: State, form: SignupForm)
    ensures IsValidEmail(Trim(form.email)) && !IsValidPassword(form.password) ==>
      HandleSignup(st, form).state.alertTitle == InvalidPasswordTitle &&
      HandleSignup(st, form).state.alertMessage == InvalidPasswordMessage
  {
  }

  /** Whitespace around the email is dropped before the checks and the
      request; the password is checked and sent exactly as typed, so a
      password padded with spaces keeps its spaces. */
  lemma EmailTrimmedPasswordNot(st: State, w1: string, email: string, w2: string,
                                firstName: string, lastName: string, password: string)
    requires AllWs(w1) && AllWs(w2) && IsValidEmail(email) && IsValidPassword(password)
    ensures var h := HandleSignup(st, SignupForm(w1 + email + w2, firstName, lastName, password));
      h.request.Some? && h.request.value.email == email && h.request.value.password == password
  {
    var form := SignupForm(w1 + email + w2, firstName, lastName, password);
    assert Trim(form.email) == email by {
      ValidEmailIsTrimmed(email);
      TrimOfPadded(w1, email, w2);
    }
    assert CheckForm(form) == Accepted;
  }

  /** The code phase is entered only on status 201; otherwise the phase and
      the stored email are left as they were. */
  lemma OtpPhaseOnlyOn201(st: State, sent: SignupBody, outcome: Outcome)
    ensures var st' := HandleSignupOutcome(st, sent, outcome);
      (st'.showOtpPopup <==> st.showOtpPopup || (outcome.Reply? && outcome.status == 201)) &&
      (outcome.Reply? && outcome.status == 201 ==> st'.userEmail == sent.email && !st'.showAlert) &&
      (!(outcome.Reply? && outcome.status == 201) ==> st'.userEmail == st.userEmail && st'.showAlert)
  {
  }

  /** Starting on the form, the code phase is reached only through a request
      that passed both checks and a 201 reply, and the email kept for
      verification is the trimmed, validated one. */
  lemma OtpPhaseKeepsValidatedEmail(st: State, form: SignupForm, outcome: Outcome)
    requires !st.showOtpPopup
    ensures var h := HandleSignup(st, form);
      var st' := if h.request.Some? then HandleSignupOutcome(h.state, h.request.value, outcome) else h.state;
      st'.showOtpPopup ==>
        st'.userEmail == Trim(form.email) && IsValidEmail(st'.userEmail) && IsValidPassword(form.password)
  {
    var h := HandleSignup(st, form);
    SignupRequestIffValid(st, form);
    if h.request.Some? {
      OtpPhaseOnlyOn201(h.state, h.request.value, outcome);
    }
  }

  /** A code request is issued iff the code is six ASCII digits, and it
      pairs the code with the email kept from the sign-up step. */
  lemma OtpRequestIffSixDigits(st: State)
    ensures HandleVerifyOtp(st).request.Some? <==> OtpRegexTest(st.otp)
    ensures HandleVerifyOtp(st).request.Some? ==>
      HandleVerifyOtp(st).request.value == OtpBody(st.userEmail, st.otp)
    ensures HandleVerifyOtp(st).request.None? ==> HandleVerifyOtp(st).state.alertTitle == InvalidOtpTitle
  {
    OtpLengthTestRedundant(st.otp);
  }

  /** The page moves on to the login page iff the code was accepted (200). */
  lemma RedirectOnlyOn200(st: State, outcome: Outcome)
    ensures HandleOtpOutcome(st, outcome).redirect.Some? <==> outcome.Reply? && outcome.status == 200
    ensures HandleOtpOutcome(st, outcome).redirect.Some? ==>
      HandleOtpOutcome(st, outcome).redirect.value == LoginPath &&
      HandleOtpOutcome(st, outcome).state.alertType == Success
  {
  }

  /** A failure reply shows the server's message as sent, or the default
      when it sends none or an empty one. */
  lemma FailureMessageFallback(st: State, sent: SignupBody, status: int, message: Option<string>)
    requires status != 201
    ensures var st' := HandleSignupOutcome(st, sent, Reply(status, Json(message)));
      st'.showAlert && st'.alertType == Error && st'.alertTitle == SignupFailedTitle &&
      (message.Some? && message.value != "" ==> st'.alertMessage == message.value) &&
      (message.None? || message.value == "" ==> st'.alertMessage == SignupFailedDefault)
  {
  }

  /** A rejected code shows the server's message as sent, or "Invalid
      code." when it sends none or an empty one, and stays on the page. */
  lemma OtpFailureMessageFallback(st: State, status: int, message: Option<string>)
    requires status != 200
    ensures var v := HandleOtpOutcome(st, Reply(status, Json(message)));
      v.redirect.None? && v.state.alertType == Error && v.state.alertTitle == OtpFailedTitle &&
      (message.Some? && message.value != "" ==> v.state.alertMessage == message.value) &&
      (message.None? || message.value == "" ==> v.state.alertMessage == OtpFailedDefault)
  {
  }
}

=== FILE: signup_rules.dfy ===
/** The client-side checks of the sign-up form and of the one-time code:
    the email regex `^[^\s@]+@[^\s@]+\.[^\s@]+$` together with the school
    domain, the 8–64 character password rule and the six-digit code. */
module SignupRules {
  import opened JsString

  /** The only accepted email domain, `@` included. */
  const RequiredDomain: string := "@tpl.edu.ee"

  const PasswordMin: nat := 8
  const PasswordMax: nat := 64
  const OtpLength: nat := 6

  /** The regex class `[^\s@]`. */
  predicate IsAddrChar(c: char) {
    !IsWs(c) && c != '@'
  }

  predicate AllAddrChars(s: string) {
    forall i :: 0 <= i < |s| ==> IsAddrChar(s[i])
  }

  /** One `[^\s@]+` run. */
  predicate AddrRun(s: string) {
    |s| > 0 && AllAddrChars(s)
  }

  /** The email regex read as a grammar: three non-empty `[^\s@]+` runs
      separated by `@` and by a literal dot, anchored at both ends. */
  ghost predicate EmailGrammar(s: string) {
    exists a, b, c :: AddrRun(a) && AddrRun(b) && AddrRun(c) && s == a + "@" + b + "." + c
  }

  /** The part after `@`: `[^\s@]+\.[^\s@]+`. The dot is itself a `[^\s@]`
      character, so this asks for a dot that is neither first nor last. */
  predicate DomainMatches(d: string) {
    AllAddrChars(d) && exists i :: 0 < i < |d| - 1 && d[i] == '.'
  }

  /** The executable `emailRegex.test(s)`: an `@` after a non-empty run of
      address characters, followed by a matching domain. */
  predicate EmailRegexTest(s: string) {
    exists k :: 0 < k < |s| && s[k] == '@' && AllAddrChars(s[..k]) && DomainMatches(s[k + 1..])
  }

  /** Every string the executable test accepts is in the regex's language. */
  lemma EmailRegexTestSound(s: string)
    requires EmailRegexTest(s)
    ensures EmailGrammar(s)
  {
    var k :| 0 < k < |s| && s[k] == '@' && AllAddrChars(s[..k]) && DomainMatches(s[k + 1..]);
    var d := s[k + 1..];
    var i :| 0 < i < |d| - 1 && d[i] == '.';
    var a, b, c := s[..k], d[..i], d[i + 1..];
    assert AllAddrChars(b) by {
      forall j | 0 <= j < |b| ensures IsAddrChar(b[j]) { assert b[j] == d[j]; }
    }
    assert AllAddrChars(c) by {
      forall j | 0 <= j < |c| ensures IsAddrChar(c[j]) { assert c[j] == d[i + 1 + j]; }
    }
    assert d == b + "." + c;
    assert s == a + "@" + d;
    GrammarWitness(s, a, b, c);
  }

  lemma GrammarWitness(s: string, a: string, b: string, c: string)
    requires AddrRun(a) && AddrRun(b) && AddrRun(c)
    requires s == a + "@" + (b + "." + c)
    ensures EmailGrammar(s)
  {
    assert a + "@" + (b + "." + c) == a + "@" + b + "." + c;
  }

  /** Every string in the regex's language passes the executable test. */
  lemma EmailRegexTestComplete(s: string)
    requires EmailGrammar(s)
    ensures EmailRegexTest(s)
  {
    var a, b, c :| AddrRun(a) && AddrRun(b) && AddrRun(c) && s == a + "@" + b + "." + c;
    IsWsFacts();
    var k := |a|;
    assert s[..k] == a;
    var d := s[k + 1..];
    assert d == b + "." + c;
    assert d[|b|] == '.';
    assert IsAddrChar('.');
    assert AllAddrChars(d) by {
      forall j | 0 <= j < |d| ensures IsAddrChar(d[j]) {
        if j < |b| { assert d[j] == b[j]; }
        else if j > |b| { assert d[j] == c[j - |b| - 1]; }
      }
    }
    assert DomainMatches(d);
  }

  /** The executable test decides exactly the regex's language. */
  lemma EmailRegexTestMatchesGrammar(s: string)
    ensures EmailRegexTest(s) <==> EmailGrammar(s)
  {
    if EmailRegexTest(s) { EmailRegexTestSound(s); }
    if EmailGrammar(s) { EmailRegexTestComplete(s); }
  }

  predicate NoWs(s: string) {
    forall i :: 0 <= i < |s| ==> !IsWs(s[i])
  }

  /** Index `k` holds the string's only `@`. */
  predicate OnlyAtIndex(s: string, k: int) {
    0 <= k < |s| && s[k] == '@' && forall j :: 0 <= j < |s| && j != k ==> s[j] != '@'
  }

  /** The regex in plain words: no whitespace, exactly one `@` with something
      before it, and a dot in the domain that is neither its first nor its
      last character. */
  lemma EmailRegexTestCharacterized(s: string)
    ensures EmailRegexTest(s) <==>
      NoWs(s) && exists k :: OnlyAtIndex(s, k) && k > 0 && exists i :: k + 1 < i < |s| - 1 && s[i] == '.'
  {
    IsWsFacts();
    if EmailRegexTest(s) {
      var k :| 0 < k < |s| && s[k] == '@' && AllAddrChars(s[..k]) && DomainMatches(s[k + 1..]);
      var d := s[k + 1..];
      forall j | 0 <= j < |s| && j != k ensures IsAddrChar(s[j]) {
        if j < k { assert s[j] == s[..k][j]; } else { assert s[j] == d[j - k - 1]; }
      }
      var i :| 0 < i < |d| - 1 && d[i] == '.';
      assert s[k + 1 + i] == '.';
      assert OnlyAtIndex(s, k);
    }
    if NoWs(s) && exists k :: OnlyAtIndex(s, k) && k > 0 && exists i :: k + 1 < i < |s| - 1 && s[i] == '.' {
      var k :| OnlyAtIndex(s, k) && k > 0 && exists i :: k + 1 < i < |s| - 1 && s[i] == '.';
      var i :| k + 1 < i < |s| - 1 && s[i] == '.';
      var d := s[k + 1..];
      assert AllAddrChars(s[..k]) by {
        forall j | 0 <= j < k ensures IsAddrChar(s[..k][j]) { assert s[..k][j] == s[j]; }
      }
      assert AllAddrChars(d) by {
        forall j | 0 <= j < |d| ensures IsAddrChar(d[j]) { assert d[j] == s[k + 1 + j]; }
      }
      assert d[i - k - 1] == '.';
      assert DomainMatches(d);
    }
  }

  /** The email rule of both sign-up pages: the regex and the school domain. */
  predicate IsValidEmail(email: string) {
    EmailRegexTest(email) && EndsWith(email, RequiredDomain)
  }

  lemma RequiredDomainShape()
    ensures |RequiredDomain| == 11 && RequiredDomain[0] == '@'
    ensures DomainMatches(RequiredDomain[1..])
  {
    IsWsFacts();
    var d := RequiredDomain[1..];
    assert d == "tpl.edu.ee";
    assert d[3] == '.';
    assert forall c: char :: ('a' <= c <= 'z' || c == '.') ==> IsAddrChar(c);
    assert forall j :: 0 <= j < |d| ==> 'a' <= d[j] <= 'z' || d[j] == '.';
  }

  /** An accepted email is a non-empty run of address characters followed by
      `@tpl.edu.ee`, and every such string is accepted. */
  lemma ValidEmailShape(email: string)
    ensures IsValidEmail(email) <==>
      |email| > |RequiredDomain| &&
      email[|email| - |RequiredDomain|..] == RequiredDomain &&
      AllAddrChars(email[..|email| - |RequiredDomain|])
  {
    RequiredDomainShape();
    var n := |email|;
    if IsValidEmail(email) {
      var k :| 0 < k < n && email[k] == '@' && AllAddrChars(email[..k]) && DomainMatches(email[k + 1..]);
      var at := n - 11;
      assert email[at] == RequiredDomain[0] == '@';
      assert at == k;
    }
    if n > 11 && email[n - 11..] == RequiredDomain && AllAddrChars(email[..n - 11]) {
      var k := n - 11;
      assert email[k] == '@';
      assert email[k + 1..] == RequiredDomain[1..];
      assert EmailRegexTest(email);
    }
  }

  /** Every accepted email has its single `@` exactly eleven characters from
      the end, with a non-empty local part before it. */
  lemma ValidEmailSingleAt(email: string)
    requires IsValidEmail(email)
    ensures |email| > 11 && OnlyAtIndex(email, |email| - 11)
  {
    ValidEmailShape(email);
    var k := |email| - 11;
    var local := email[..k];
    forall j | 0 <= j < |email| && j != k ensures email[j] != '@' {
      if j < k {
        assert email[j] == local[j];
      } else {
        assert email[j] == RequiredDomain[j - k];
        assert forall m :: 1 <= m < 11 ==> RequiredDomain[m] != '@';
      }
    }
  }

  /** An accepted email carries no surrounding whitespace, so trimming it
      again changes nothing. */
  lemma ValidEmailIsTrimmed(email: string)
    requires IsValidEmail(email)
    ensures Unpadded(email) && Trim(email) == email
  {
    ValidEmailShape(email);
    IsWsFacts();
    var k := |email| - 11;
    assert email[..k][0] == email[0];
    assert !IsWs(email[0]);
    assert email[|email| - 1] == 'e';
    TrimFixedIffUnpadded(email);
  }

  /** The password rule: rejected when `.length < 8 || .length > 64`. */
  predicate IsValidPassword(password: string) {
    !(Utf16Length(password) < PasswordMin || Utf16Length(password) > PasswordMax)
  }

  /** For a password without characters above U+FFFF the rule is
      8 <= |password| <= 64 characters; lengths 7 and 65 fall outside. */
  lemma PasswordRuleBmp(password: string)
    requires forall i :: 0 <= i < |password| ==> IsBmp(password[i])
    ensures IsValidPassword(password) <==> 8 <= |password| <= 64
  {
  }

  /** `.length` counts code units, so four emoji (eight code units) pass. */
  lemma PasswordCountsCodeUnits()
    ensures IsValidPassword("\U{1F600}\U{1F600}\U{1F600}\U{1F600}")
    ensures !IsValidPassword("\U{1F600}\U{1F600}\U{1F600}")
  {
  }

  predicate IsAsciiDigit(c: char) {
    '0' <= c <= '9'
  }

  /** `/^\d{6}$/.test(otp)`: `\d` is the ASCII digits only. */
  predicate OtpRegexTest(otp: string) {
    |otp| == OtpLength && forall i :: 0 <= i < |otp| ==> IsAsciiDigit(otp[i])
  }

  /** The code check: rejected when `otp.length !== 6` or the regex fails. */
  predicate IsValidOtp(otp: string) {
    !(Utf16Length(otp) != OtpLength || !OtpRegexTest(otp))
  }

  /** A code is accepted iff it is exactly six ASCII digits; the explicit
      length test adds nothing to the regex. */
  lemma OtpLengthTestRedundant(otp: string)
    ensures IsValidOtp(otp) <==> OtpRegexTest(otp)
    ensures OtpRegexTest(otp) ==> Utf16Length(otp) == OtpLength
  {
    if OtpRegexTest(otp) {
      assert forall i :: 0 <= i < |otp| ==> IsBmp(otp[i]);
    }
  }
}

=== FILE: voting.dfy ===
/** The swipe-voting page (`app/authenticated/voting/page.tsx`): a card is
    dragged with pointer events. On release, the position of the last
    pointer move, if it is more than 100 pixels right or left of where the
    press started, votes like or dislike for the idea shown. Coordinates
    are JavaScript numbers and so `real` here. `startX` and `currentX` are
    refs (updated at once); `offsetX`, `isDragging`, `idea` and `loading`
    are React state. The vote request is returned instead of sent; its
    reply is a parameter of `IdeaArrived`. */
module Voting {
  import opened Optional

  datatype Vote = Like | Dislike

  datatype Idea = Idea(id: string, title: string, description: string)

  /** The card's gesture state. */
  datatype Card = Card(startX: Option<real>, currentX: real, offsetX: real, isDragging: bool)

  /** The page: the idea on the card, the loading flag and the card. */
  datatype Page = Page(idea: Option<Idea>, loading: bool, card: Card)

  /** The vote request `POST /v1/voting/<id>` with body `{ vote }`. */
  datatype VoteRequest = VoteRequest(ideaId: string, vote: Vote)

  /** A handler's new page and the vote it sends, if any. */
  datatype Step = Step(page: Page, request: Option<VoteRequest>)

  /** Minimum horizontal travel that votes. */
  const Threshold: real := 100.0

  const InitialPage: Page := Page(None, true, Card(None, 0.0, 0.0, false))

  /** `resetCard`: the card back in place and not dragging. */
  function ResetCard(c: Card): (c': Card)
    ensures c'.offsetX == 0.0 && !c'.isDragging
    ensures c'.startX == c.startX && c'.currentX == c.currentX
  {
    c.(offsetX := 0.0, isDragging := false)
  }

  /** `handlePointerDown`: remember where the press started and start
      dragging. `currentX` keeps whatever the last move left in it. */
  function PointerDown(c: Card, clientX: real): (c': Card)
    ensures c'.startX == Some(clientX) && c'.isDragging
    ensures c'.currentX == c.currentX && c'.offsetX == c.offsetX
  {
    c.(startX := Some(clientX), isDragging := true)
  }

  /** `handlePointerMove`: while dragging from a known start, follow the
      pointer; otherwise do nothing. */
  function PointerMove(c: Card, clientX: real): Card {
    if !c.isDragging || c.startX.None? then c
    else c.(currentX := clientX, offsetX := clientX - c.startX.value)
  }

  /** The vote a horizontal travel of `delta` casts; `None` resets the card. */
  function Classify(delta: real): Option<Vote> {
    if delta > Threshold then Some(Like)
    else if delta < -Threshold then Some(Dislike)
    else None
  }

  /** The synchronous part of `submitVote`: without an idea nothing happens;
      otherwise the card is released, loading starts and the vote is sent. */
  function SubmitVote(p: Page, vote: Vote): (s: Step)
    ensures s.request.Some? <==> p.idea.Some?
  {
    if p.idea.None? then Step(p, None)
    else
      Step(Page(p.idea, true, p.card.(isDragging := false, offsetX := 0.0)),
           Some(VoteRequest(p.idea.value.id, vote)))
  }

  /** `handlePointerUp`: with no press in progress nothing happens; otherwise
      the travel since the press is classified, and the press is forgotten. */
  function PointerUp(p: Page): (s: Step)
    ensures p.card.startX.None? ==> s == Step(p, None)
    ensures s.page.card.startX.None?
  {
    if p.card.startX.None? then Step(p, None)
    else
      var delta := p.card.currentX - p.card.startX.value;
      var s := match Classify(delta)
        case Some(v) => SubmitVote(p, v)
        case None => Step(p.(card := ResetCard(p.card)), None);
      Step(s.page.(card := s.page.card.(startX := None)), s.request)
  }

  /** `onPointerCancel`: only `resetCard`; the press start stays recorded. */
  function PointerCancel(p: Page): (p': Page)
    ensures p'.card.startX == p.card.startX && p'.card.currentX == p.card.currentX
    ensures p'.card.offsetX == 0.0 && !p'.card.isDragging
    ensures p'.idea == p.idea && p'.loading == p.loading
  {
    p.(card := ResetCard(p.card))
  }

  /** The `finally` of `submitVote` and of the first load: show the next
      idea (`None` when there is none or the request failed), stop loading,
      reset the card. */
  function IdeaArrived(p: Page, next: Option<Idea>): (p': Page)
    ensures p'.idea == next && !p'.loading
    ensures p'.card.offsetX == 0.0 && !p'.card.isDragging
  {
    Page(next, false, ResetCard(p.card))
  }

  /** Travel beyond +100 likes, beyond -100 dislikes, anything in between
      (the bounds included) votes nothing. */
  lemma ClassifyThresholds(delta: real)
    ensures Classify(delta) == Some(Like) <==> delta > 100.0
    ensures Classify(delta) == Some(Dislike) <==> delta < -100.0
    ensures Classify(delta).None? <==> -100.0 <= delta <= 100.0
    ensures Classify(100.0).None? && Classify(-100.0).None?
    ensures Classify(100.5) == Some(Like) && Classify(-100.5) == Some(Dislike)
  {
  }

  /** Releasing sends the classified vote for the idea on the card, or
      resets the card; the press start is cleared either way. */
  lemma PointerUpOutcome(p: Page)
    requires p.card.startX.Some?
    ensures var s := PointerUp(p);
      var vote := Classify(p.card.currentX - p.card.startX.value);
      s.page.card.startX.None? &&
      (s.request.Some? <==> vote.Some? && p.idea.Some?) &&
      (s.request.Some? ==> s.request.value == VoteRequest(p.idea.value.id, vote.value) && s.page.loading) &&
      (vote.None? ==> s.page == p.(card := Card(None, p.card.currentX, 0.0, false)))
  {
  }

  /** A vote with no idea on the card is a no-op, as in `submitVote`: a
      release far enough to vote does not even reset the card; only the
      press start is cleared. */
  lemma PointerUpWithoutIdea(p: Page)
    requires p.card.startX.Some? && p.idea.None?
    requires Classify(p.card.currentX - p.card.startX.value).Some?
    ensures PointerUp(p) == Step(p.(card := p.card.(startX := None)), None)
  {
  }

  /** A move changes the card only while dragging from a known start, and
      then the offset is the travel from the start. */
  lemma PointerMoveFollows(c: Card, clientX: real)
    ensures PointerMove(c, clientX) != c ==> c.isDragging && c.startX.Some?
    ensures c.isDragging && c.startX.Some? ==>
      var c' := PointerMove(c, clientX);
      c'.currentX == clientX && c'.offsetX == clientX - c.startX.value &&
      c'.startX == c.startX && c'.isDragging
  {
  }

  /** As written, a press and release with no move in between votes on the
      `currentX` left by earlier gestures: on a freshly loaded card a tap
      150 pixels from the left edge sends a dislike, and after a swipe to
      the right a tap where that swipe began likes the next idea too. */
  lemma TapVotesWithStaleCurrentX(first: Idea, second: Idea)
    ensures var p := IdeaArrived(InitialPage, Some(first));
      PointerUp(p.(card := PointerDown(p.card, 150.0))).request == Some(VoteRequest(first.id, Dislike))
    ensures var p := IdeaArrived(InitialPage, Some(first));
      var swiped := PointerUp(p.(card := PointerMove(PointerDown(p.card, 0.0), 200.0)));
      var p2 := IdeaArrived(swiped.page, Some(second));
      swiped.request == Some(VoteRequest(first.id, Like)) &&
      PointerUp(p2.(card := PointerDown(p2.card, 0.0))).request == Some(VoteRequest(second.id, Like))
  {
  }

  /** The press as evidently intended: it also starts `currentX` at the
      press position. */
  function PointerDownCorrected(c: Card, clientX: real): (c': Card)
    ensures c'.startX == Some(clientX) && c'.isDragging && c'.currentX == clientX
    ensures c'.offsetX == c.offsetX
  {
    c.(startX := Some(clientX), currentX := clientX, isDragging := true)
  }

  /** With the corrected press, the travel at release is the last move's
      position minus the press position, so a tap (no move) never votes,
      and a press followed by one move votes exactly as that move's travel
      classifies. */
  lemma CorrectedGestureVotesOnTravel(p: Page, downX: real, moveX: real)
    ensures var tapped := p.(card := PointerDownCorrected(p.card, downX));
      PointerUp(tapped).request.None?
    ensures var dragged := p.(card := PointerMove(PointerDownCorrected(p.card, downX), moveX));
      PointerUp(dragged).request ==
        (match Classify(moveX - downX)
         case Some(v) => if p.idea.Some? then Some(VoteRequest(p.idea.value.id, v)) else None
         case None => None)
  {
  }
}
